=== FILE: README.md ===
# SQL Server interpreter for Zeppelin — a Dafny model

This project models the core of `SqlServerInterpreter`, the Zeppelin
interpreter that runs T-SQL paragraphs against SQL Server. The JDBC driver is
abstracted away. What remains is three deterministic pieces.

- **The connection lifecycle.** `openSQLServerConnection`, both
  `closeSQLServerConnection` overloads, `open`, `close`, and the connection
  handling in `interpret`.
  - The interpreter's two fields are a `Session` record: `useNotebook` and an
    optional `global` handle.
  - Physical connections are handle numbers in a `Pool`. The pool records
    the open handles, the number issued so far, and the history of acquire
    and release calls.
  - The driver's answers are inputs (`Driver`): whether `isClosed()` throws
    or reports the server side closed, and whether a new connection opens.
- **The result normaliser.**
  - A statement's outcome is an input: a row set, an update count, or an
    `SQLException` with a possibly null message.
  - The normaliser renders it as `interpret` does: the `%table`
    text with sanitised cells, the `records affected.` line, or the
    two-line failure text.
  - Each rendering has a partner parser. The proofs show that the text can
    be read back to what was rendered. For a row set this needs at least one
    column and column names free of tabs and line feeds, because column
    names are appended unsanitised.
- **The meta-commands and the scheduler choice.**
  - `:help` and `:info` are answered without a connection.
  - The connection style string decides notebook or paragraph mode.
  - The mode decides between a FIFO scheduler and a parallel one with
    bound 10.

Modules (one file each):

- `Wrappers` — `Option`.
- `Text` — `Join`, which models the `StringBuilder` append loops that put
  a delimiter between fields; `Split`, the reader the round-trip proofs use
  (the source never splits); ASCII lower-casing, `trim`, and decimal
  rendering.
- `ResultFormat` — the sanitiser, the renderers and their parsers.
- `MetaCommands` — `executeMetaCommand`.
- `Connections` — acquire and release.
- `Interpreter` — `open`, `close`, `interpret` and `getScheduler`.

Three details of `interpret` and `executeMetaCommand` shape the model:

- **Routing does not trim.** `interpret` sends a command to the meta-command
  handler only when its very first character is `:`, so `" :help"` goes to
  the server as a statement (`Interpreter.LeadingBlanksReachServer`).
- **The sigil is part of the comparison.** The meta-command handler compares
  the whole lower-cased, trimmed command, colon included, with `:help` and
  `:info`.
- **Column names are not sanitised.** Only cell values are. A column name
  holding a tab therefore splits into two header fields when the table is
  read back (`ResultFormat.HeaderNotSanitised`).

## Model

All source paths are under `sqlserver/src/main/java/org/apache/zeppelin/sqlserver/`; the table writes them in full.

| member | source | states |
|---|---|---|
| `Text.Trim` | sqlserver/src/main/java/org/apache/zeppelin/sqlserver/SqlServerInterpreter.java:177 | `String.trim`: the result is the infix of the input left after dropping every character up to U+0020 from both ends, and it neither starts nor ends with such a character |
| `Text.TrimPadded` | sqlserver/src/main/java/org/apache/zeppelin/sqlserver/SqlServerInterpreter.java:177 | blanks around a core that starts and ends with a non-blank are exactly what `trim` removes |
| `Text.NatToString` | sqlserver/src/main/java/org/apache/zeppelin/sqlserver/SqlServerInterpreter.java:317 | `%1$d` of a non-negative count is a non-empty string of decimal digits with no leading zero |
| `Text.NatToStringParse` | sqlserver/src/main/java/org/apache/zeppelin/sqlserver/SqlServerInterpreter.java:317 | digits without a leading zero are the only text `%1$d` prints for the number they denote |
| `Text.ParseNatToString` | sqlserver/src/main/java/org/apache/zeppelin/sqlserver/SqlServerInterpreter.java:317 | the decimal digits printed for a count read back as that count |
| `Text.SplitJoin` | sqlserver/src/main/java/org/apache/zeppelin/sqlserver/SqlServerInterpreter.java:299-311 | fields joined with a delimiter none of them contains split back into exactly those fields, which is why the rendered lines stay parseable |
| `Text.JoinSplit` | sqlserver/src/main/java/org/apache/zeppelin/sqlserver/SqlServerInterpreter.java:299-311 | splitting a text on a delimiter and joining the fields again gives back the text |
| `ResultFormat.ReplaceSpec` | sqlserver/src/main/java/org/apache/zeppelin/sqlserver/SqlServerInterpreter.java:167 | `String.replace(char, char)` keeps the length and changes exactly the occurrences of the one character |
| `ResultFormat.Sanitise` | sqlserver/src/main/java/org/apache/zeppelin/sqlserver/SqlServerInterpreter.java:163-168 | a null cell becomes the empty string; otherwise the length is kept, each tab and line feed becomes a space, every other character (carriage return included) is unchanged, and no tab or line feed remains |
| `ResultFormat.SanitiseClean` | sqlserver/src/main/java/org/apache/zeppelin/sqlserver/SqlServerInterpreter.java:163-168 | a cell without tab or line feed is passed through unchanged |
| `ResultFormat.SanitiseRow` | sqlserver/src/main/java/org/apache/zeppelin/sqlserver/SqlServerInterpreter.java:307-310 | a row keeps its width and each cell is sanitised in place |
| `ResultFormat.AppendHeader` | sqlserver/src/main/java/org/apache/zeppelin/sqlserver/SqlServerInterpreter.java:298-302 | the header loop appends the column names separated by tabs, with no tab after the last one |
| `ResultFormat.AppendRow` | sqlserver/src/main/java/org/apache/zeppelin/sqlserver/SqlServerInterpreter.java:307-310 | the cell loop appends the sanitised cells separated by tabs, with no tab after the last one |
| `ResultFormat.RenderRowSet` | sqlserver/src/main/java/org/apache/zeppelin/sqlserver/SqlServerInterpreter.java:294-312 | the loops of `interpret` build the `%table ` tag, the header line, and one newline-terminated line per row, which is the table text the normaliser returns |
| `ResultFormat.TableRoundTrip` | sqlserver/src/main/java/org/apache/zeppelin/sqlserver/SqlServerInterpreter.java:290-312 | when the column names hold no tab or line feed, the `%table` text reads back as those columns and the sanitised rows, and every body line splits into exactly as many fields as there are columns |
| `ResultFormat.BodyLinesSplit` | sqlserver/src/main/java/org/apache/zeppelin/sqlserver/SqlServerInterpreter.java:305-311 | whatever the column names hold, every body line splits on tabs into exactly the sanitised cells of its row |
| `ResultFormat.BodyLineWidths` | sqlserver/src/main/java/org/apache/zeppelin/sqlserver/SqlServerInterpreter.java:305-311 | whatever the column names hold, every body line has exactly as many tab-separated fields as there are columns |
| `ResultFormat.GridRoundTrip` | sqlserver/src/main/java/org/apache/zeppelin/sqlserver/SqlServerInterpreter.java:294-312 | a grid of delimiter-free fields, rendered in the `%table` layout, reads back as the same header and rows |
| `ResultFormat.HeaderNotSanitised` | sqlserver/src/main/java/org/apache/zeppelin/sqlserver/SqlServerInterpreter.java:298-302 | a column name is appended raw, so any name `a<TAB>b` whose two parts are free of tabs and line feeds reads back as the two header fields `a` and `b` |
| `ResultFormat.UpdateRoundTrip` | sqlserver/src/main/java/org/apache/zeppelin/sqlserver/SqlServerInterpreter.java:314-320 | a count of zero or more renders as `<n> records affected.` from which the count reads back; a negative count renders as `Command executed successfully.` and carries no count |
| `ResultFormat.AffectedCountExact` | sqlserver/src/main/java/org/apache/zeppelin/sqlserver/SqlServerInterpreter.java:317 | any text read as a count is exactly the message printed for that count, so the digits carry no leading zero and the suffix is the literal one |
| `ResultFormat.TableTagged` | sqlserver/src/main/java/org/apache/zeppelin/sqlserver/SqlServerInterpreter.java:294 | table output always starts with the `%table ` tag |
| `ResultFormat.UpdateNotTable` | sqlserver/src/main/java/org/apache/zeppelin/sqlserver/SqlServerInterpreter.java:314-320 | update-count output never starts with the `%table ` tag |
| `ResultFormat.StatementErrorRoundTrip` | sqlserver/src/main/java/org/apache/zeppelin/sqlserver/SqlServerInterpreter.java:323-329 | the failure text is the fixed line `Cannot execute SQL Server statement.` followed by the exception message (`null` when absent) on a newline-terminated line of its own, and nothing else |
| `ResultFormat.Normalise` | sqlserver/src/main/java/org/apache/zeppelin/sqlserver/SqlServerInterpreter.java:288-329 | the code is ERROR exactly for an `SQLException`; the text is tagged `%table` exactly for a row set, and when there is at least one column, every row has one cell per column and no column name holds a tab or line feed, it reads back as the columns and sanitised rows; an update count reads back as the count, or is the no-count text when negative; a failure's text carries the exception message and nothing of the partial output |
| `MetaCommands.ExecuteMetaCommand` | sqlserver/src/main/java/org/apache/zeppelin/sqlserver/SqlServerInterpreter.java:170-212 | SUCCESS exactly when the lower-cased, trimmed command is `:help` or `:info`, otherwise ERROR with `Meta-command not known`; `:help` gives a table with header `MetaCommand`/`Description` and exactly the two entries `help` and `info` in some order; `:info` gives three lines naming the version, the connection style and the scheduler type |
| `MetaCommands.HelpIsTable` | sqlserver/src/main/java/org/apache/zeppelin/sqlserver/SqlServerInterpreter.java:179-191 | whichever order the Hashtable yields, the help text reads back as the two-column table of the two entries |
| `MetaCommands.InfoLines` | sqlserver/src/main/java/org/apache/zeppelin/sqlserver/SqlServerInterpreter.java:194-203 | the info text is exactly three lines, the last without a trailing newline, reporting `true`/`FIFO` in notebook mode and `false`/`Parallel` otherwise |
| `MetaCommands.RecognisedModuloCaseAndBlanks` | sqlserver/src/main/java/org/apache/zeppelin/sqlserver/SqlServerInterpreter.java:177-194 | a meta-command is recognised in any letter case and with any blanks around it |
| `Connections.Acquire` | sqlserver/src/main/java/org/apache/zeppelin/sqlserver/SqlServerInterpreter.java:92-142 | a live notebook connection is returned with nothing changed; a throwing `isClosed` gives null with nothing changed; a failed open gives null with the session unchanged; otherwise the newly issued handle is returned, becomes the global one in notebook mode and clears it in paragraph mode, and a notebook connection found closed leaves the open set, whether or not a new one opens; every other open connection stays open |
| `Connections.Release` | sqlserver/src/main/java/org/apache/zeppelin/sqlserver/SqlServerInterpreter.java:149-161 | unforced in notebook mode nothing is closed; otherwise a non-null handle is closed, even when closing fails, and no other handle is affected |
| `Connections.ReleaseUnforced` | sqlserver/src/main/java/org/apache/zeppelin/sqlserver/SqlServerInterpreter.java:144-147 | the one-argument overload keeps every connection in notebook mode and closes the given one in paragraph mode |
| `Connections.AcquireConsistent` | sqlserver/src/main/java/org/apache/zeppelin/sqlserver/SqlServerInterpreter.java:92-142 | after an acquisition every open and every remembered handle is one that was issued |
| `Connections.ReleaseConsistent` | sqlserver/src/main/java/org/apache/zeppelin/sqlserver/SqlServerInterpreter.java:149-161 | a release keeps every open and every remembered handle issued |
| `Connections.ReleaseIdempotent` | sqlserver/src/main/java/org/apache/zeppelin/sqlserver/SqlServerInterpreter.java:259-264 | force-closing a handle a second time closes nothing more |
| `Connections.ReleaseCountAppend` | sqlserver/src/main/java/org/apache/zeppelin/sqlserver/SqlServerInterpreter.java:331 | the number of release calls for a handle adds up over consecutive parts of the call history |
| `Interpreter.UseNotebookConnection` | sqlserver/src/main/java/org/apache/zeppelin/sqlserver/SqlServerInterpreter.java:218-220 | paragraph mode is chosen exactly when the style is `paragraph` with each letter in either case; anything else, blanks included, is notebook mode |
| `Interpreter.StyleIgnoresCase` | sqlserver/src/main/java/org/apache/zeppelin/sqlserver/SqlServerInterpreter.java:220 | a style and its lower-cased form select the same mode |
| `Interpreter.StyleNotTrimmed` | sqlserver/src/main/java/org/apache/zeppelin/sqlserver/SqlServerInterpreter.java:220 | a style starting with a blank selects notebook mode, because the style is not trimmed |
| `Interpreter.Open` | sqlserver/src/main/java/org/apache/zeppelin/sqlserver/SqlServerInterpreter.java:215-254 | `open` sets the mode from the style, then makes exactly one acquire call, whose answer and session are those of `openSQLServerConnection`, and one unforced release of what it returned, null included; in notebook mode a connection obtained there stays open as the global one, so the connection is opened when the notebook is; in paragraph mode it leaves no new connection open |
| `Interpreter.OpenSettles` | sqlserver/src/main/java/org/apache/zeppelin/sqlserver/SqlServerInterpreter.java:253-254 | after `open` on a new interpreter, nothing is open except, in notebook mode, the global connection |
| `Interpreter.Close` | sqlserver/src/main/java/org/apache/zeppelin/sqlserver/SqlServerInterpreter.java:259-264 | `close` force-closes the global connection with one forced release call and keeps it recorded in the session |
| `Interpreter.CloseSettled` | sqlserver/src/main/java/org/apache/zeppelin/sqlserver/SqlServerInterpreter.java:259-264 | after `close` no connection is open |
| `Interpreter.Interpret` | sqlserver/src/main/java/org/apache/zeppelin/sqlserver/SqlServerInterpreter.java:266-334 | a command starting with `:` gets the meta-command answer and touches no connection; otherwise, without a connection the answer is ERROR `Cannot open connection to SQL Server.` after one acquire call and no release, with the session unchanged and the open connections as `openSQLServerConnection` left them; with one the answer is the normalised outcome followed by exactly one unforced release of that connection, which stays open in notebook mode and is closed in paragraph mode; the connection mode never changes |
| `Interpreter.InterpretSettled` | sqlserver/src/main/java/org/apache/zeppelin/sqlserver/SqlServerInterpreter.java:277-331 | `interpret` keeps the interpreter settled: nothing is open except the notebook's global connection |
| `Interpreter.OutcomeDoesNotAffectConnections` | sqlserver/src/main/java/org/apache/zeppelin/sqlserver/SqlServerInterpreter.java:283-331 | the connections end in the same state whether the statement succeeded or raised an `SQLException` |
| `Interpreter.ReleasedExactlyOnce` | sqlserver/src/main/java/org/apache/zeppelin/sqlserver/SqlServerInterpreter.java:277-331 | for every outcome, the acquired connection's release count grows by exactly one, and no handle's count grows when acquisition failed |
| `Interpreter.NotebookReuse` | sqlserver/src/main/java/org/apache/zeppelin/sqlserver/SqlServerInterpreter.java:95-97 | in notebook mode two statements in a row use the same connection when the second `isClosed` says it is open, and no new connection is issued |
| `Interpreter.DeadHandleReplaced` | sqlserver/src/main/java/org/apache/zeppelin/sqlserver/SqlServerInterpreter.java:95-99 | a notebook connection reported closed is replaced by a newly issued one, which becomes the global connection and the only open one |
| `Interpreter.ParagraphNeverRetains` | sqlserver/src/main/java/org/apache/zeppelin/sqlserver/SqlServerInterpreter.java:136-139 | in paragraph mode no connection stays open after a statement, the global field ends null once a connection was opened, and each statement's connection is newly issued |
| `Interpreter.ReopenAfterClose` | sqlserver/src/main/java/org/apache/zeppelin/sqlserver/SqlServerInterpreter.java:259-264 | after `close`, the next statement in notebook mode finds the kept global connection closed and opens a new one |
| `Interpreter.Scheduler` | sqlserver/src/main/java/org/apache/zeppelin/sqlserver/SqlServerInterpreter.java:352-357 | the scheduler is FIFO exactly in notebook mode and is otherwise parallel with at most 10 concurrent paragraphs |
| `Interpreter.InfoNamesScheduler` | sqlserver/src/main/java/org/apache/zeppelin/sqlserver/SqlServerInterpreter.java:199-202 | the scheduler line of `:info` names the kind `getScheduler` chooses |
| `Interpreter.StatementAcquires` | sqlserver/src/main/java/org/apache/zeppelin/sqlserver/SqlServerInterpreter.java:277 | a command not starting with `:` first makes one acquire call |
| `Interpreter.LeadingBlanksReachServer` | sqlserver/src/main/java/org/apache/zeppelin/sqlserver/SqlServerInterpreter.java:271-273 | a meta-command preceded by blanks, which the handler would accept, is not routed to it; it goes to the server and makes an acquire call |

## Left out

- JDBC itself is left out: `Class.forName`, `DriverManager.getConnection`, `createStatement`, `execute`, `getResultSet`, the result set's metadata and iteration, `getUpdateCount`, `isClosed` and `close`. Their answers are the `Driver` and `Outcome` inputs.
- The connection URL and credentials (`url + ";databaseName=" + database`) are not modelled, because only the driver consumes them.
- `DriverManager.getConnection` returning null is not modelled separately, because the JDBC contract never returns null. A failed open is an exception, which gives the `connects = false` case.
- `setMaxRows` is left out, because the driver enforces the row cap.
- Parsing `sqlserver.max.result` is left out. It is integer parsing, and its `NumberFormatException` escapes the catch.
- A property that is missing is not modelled. The style string then cannot be read and `open` throws.
- Keyword loading from `/t-sql.txt` and `/odbc.txt` in `open` is left out, and so is `completion`, which returns that list. This is resource I/O with locale-dependent case conversion.
- Logging is left out.
- `cancel`, `getProgress` and `getFormType` are left out: they are constant stubs.
- Scheduler objects and concurrency are left out. Only the FIFO/parallel choice and its bound of 10 are modelled.
- The update count is rendered with ASCII digits. `String.format` uses the default locale, which can choose other digits; the model fixes the ASCII ones.
- `Text.ToLower` lowers only the ASCII letters. Java's `toLowerCase` follows the default locale and all of Unicode.
- `MetaCommands.RecognisedModuloCaseAndBlanks` holds for ASCII lower-casing only. Under a Turkish or Azeri default locale Java lowers `I` to dotless `ı`, so `:INFO` or `:Info` gets `Meta-command not known` there, while the model answers with the info text. The style decision is unaffected, because `paragraph` contains no `i`.
- The `Outcome` input is the statement as a whole. An `SQLException` raised part way through reading a row set is modelled as a failure outcome. The source discards the partial text in that case, and the model never builds it.
- `MetaCommands.HelpIsTable`: the entry order is an input (`HelpOrder`), because `Hashtable` iteration order is not fixed by the code.
- `Connections.Release`: a `close()` that throws is treated as having closed the handle, because the model has no driver state to leave it in.
- `Connections.Acquire`: a global connection that `isClosed` reports closed leaves the open set without a close call. The source never closes it and relies on the driver having done so.

=== FILE: connections.dfy ===
/** The connection discipline of the interpreter, with JDBC abstracted away.
    A connection is a handle number; the pool records which handles are
    open, how many have been issued, and every acquire and release call in
    order. The driver's answers (does `isClosed` throw, does the server
    report the connection closed, does a new connection open) are inputs. */
module Connections {
  import opened Wrappers

  type Handle = nat

  /** The interpreter's fields `_useNotebookConnection` and
      `_jdbcGlobalConnection`. */
  datatype Session = Session(useNotebook: bool, global: Option<Handle>)

  /** One call of `openSQLServerConnection` (with the handle it returned,
      None for null) or of `closeSQLServerConnection`. */
  datatype Call =
    | Acquired(handle: Option<Handle>)
    | Released(handle: Option<Handle>, forced: bool)

  /** Handles `0 .. issued - 1` have been opened; `open` holds those not yet
      closed; `log` is the call history. */
  datatype Pool = Pool(open: set<Handle>, issued: nat, log: seq<Call>)

  /** What `isClosed()` does on the global connection: it answers, saying
      whether the server side has dropped the connection, or it throws. */
  datatype Probe = Reports(serverClosed: bool) | ProbeThrows

  /** The driver's behaviour during one acquisition. */
  datatype Driver = Driver(probe: Probe, connects: bool)

  datatype Acquisition = Acquisition(handle: Option<Handle>, session: Session, pool: Pool)

  /** Every open and every remembered handle has been issued. */
  predicate Consistent(s: Session, p: Pool) {
    && (forall h :: h in p.open ==> h < p.issued)
    && (s.global.Some? ==> s.global.value < p.issued)
  }

  /** The session has a global connection that `isClosed` is asked about. */
  predicate Probed(s: Session) {
    s.useNotebook && s.global.Some?
  }

  /** `isClosed()` answered false: the global connection is reused. */
  predicate Reusable(s: Session, p: Pool, probe: Probe) {
    Probed(s) && probe.Reports? && !IsClosed(p, s.global.value, probe.serverClosed)
  }

  /** The handle is closed once this interpreter closed it or the server
      reports it closed. */
  function IsClosed(p: Pool, h: Handle, serverClosed: bool): bool {
    h !in p.open || serverClosed
  }

  /** `openSQLServerConnection`. In notebook mode a global connection that
      is still open is returned as is; if asking `isClosed` throws, the
      answer is null and nothing changes. Otherwise a new connection is
      opened: on failure the answer is null and the session is unchanged;
      on success the new handle becomes the global one in notebook mode
      and the global one is cleared in paragraph mode. A global connection
      found closed leaves the open set. */
  function Acquire(s: Session, p: Pool, d: Driver): (a: Acquisition)
    ensures a.pool.log == p.log + [Acquired(a.handle)]
    ensures a.session.useNotebook == s.useNotebook
    ensures a.handle.Some? ==> a.handle.value in a.pool.open
    ensures a.pool.open <= p.open + {p.issued}
    ensures forall h :: h in p.open && (Probed(s) ==> h != s.global.value) ==> h in a.pool.open
    ensures Reusable(s, p, d.probe) ==>
      a.handle == s.global && a.session == s && a.pool.open == p.open && a.pool.issued == p.issued
    ensures Probed(s) && d.probe.ProbeThrows? ==>
      a.handle.None? && a.session == s && a.pool.open == p.open && a.pool.issued == p.issued
    ensures a.handle.None? ==> a.session == s && a.pool.issued == p.issued && a.pool.open <= p.open
    ensures Probed(s) && d.probe.Reports? && !Reusable(s, p, d.probe) && a.handle.None? ==>
      s.global.value !in a.pool.open
    ensures a.handle.None? <==> (Probed(s) && d.probe.ProbeThrows?) || (!Reusable(s, p, d.probe) && !d.connects)
    ensures a.handle.Some? && !Reusable(s, p, d.probe) ==>
      && a.handle.value == p.issued
      && a.pool.issued == p.issued + 1
      && a.session.global == (if s.useNotebook then a.handle else None)
      && a.pool.open - {p.issued} <= p.open
    ensures Consistent(s, p) && a.handle.Some? && !Reusable(s, p, d.probe) ==>
      && a.handle.value !in p.open
      && (Probed(s) ==> s.global.value !in a.pool.open)
  {
    if Probed(s) && d.probe.ProbeThrows? then
      Acquisition(None, s, p.(log := p.log + [Acquired(None)]))
    else if Reusable(s, p, d.probe) then
      Acquisition(s.global, s, p.(log := p.log + [Acquired(s.global)]))
    else
      // The global connection, if it was asked about, is closed.
      var live := if Probed(s) then p.open - {s.global.value} else p.open;
      if !d.connects then
        Acquisition(None, s, Pool(live, p.issued, p.log + [Acquired(None)]))
      else
        var h := p.issued;
        var global := if s.useNotebook then Some(h) else None;
        Acquisition(Some(h), s.(global := global), Pool(live + {h}, p.issued + 1, p.log + [Acquired(Some(h))]))
  }

  /** `closeSQLServerConnection(connection, force)`. In notebook mode and
      unforced it does nothing; otherwise it closes a non-null handle. A
      failing close is ignored, and the handle counts as closed. */
  function Release(s: Session, p: Pool, h: Option<Handle>, force: bool): (q: Pool)
    ensures q.issued == p.issued && q.log == p.log + [Released(h, force)]
    ensures q.open <= p.open
    ensures p.open - q.open <= (if h.Some? then {h.value} else {})
    ensures s.useNotebook && !force ==> q.open == p.open
    ensures (!s.useNotebook || force) && h.Some? ==> h.value !in q.open
  {
    var log := p.log + [Released(h, force)];
    if (s.useNotebook && !force) || h.None? then Pool(p.open, p.issued, log)
    else Pool(p.open - {h.value}, p.issued, log)
  }

  /** The one-argument `closeSQLServerConnection`: an unforced release,
      which keeps the notebook connection and closes any other. */
  function ReleaseUnforced(s: Session, p: Pool, h: Option<Handle>): (q: Pool)
    ensures q.issued == p.issued && q.log == p.log + [Released(h, false)]
    ensures s.useNotebook ==> q.open == p.open
    ensures !s.useNotebook ==> q.open == p.open - (if h.Some? then {h.value} else {})
  {
    Release(s, p, h, false)
  }

  /** Acquiring keeps every handle issued. */
  lemma AcquireConsistent(s: Session, p: Pool, d: Driver)
    requires Consistent(s, p)
    ensures var a := Acquire(s, p, d); Consistent(a.session, a.pool)
  {
  }

  /** Releasing keeps every handle issued. */
  lemma ReleaseConsistent(s: Session, p: Pool, h: Option<Handle>, force: bool)
    requires Consistent(s, p)
    ensures Consistent(s, Release(s, p, h, force))
  {
  }

  /** Forced release of the same handle twice closes no more than once. */
  lemma ReleaseIdempotent(s: Session, p: Pool, h: Option<Handle>)
    ensures Release(s, Release(s, p, h, true), h, true).open == Release(s, p, h, true).open
  {
  }

  // ---------------------------------------------------------------------
  // Counting release calls
  // ---------------------------------------------------------------------

  /** How many times `closeSQLServerConnection` was called with `h`. */
  function ReleaseCount(log: seq<Call>, h: Handle): nat
    decreases |log|
  {
    if |log| == 0 then 0
    else ReleaseCount(log[..|log| - 1], h)
         + (if log[|log| - 1].Released? && log[|log| - 1].handle == Some(h) then 1 else 0)
  }

  lemma {:induction false} ReleaseCountAppend(log: seq<Call>, more: seq<Call>, h: Handle)
    ensures ReleaseCount(log + more, h) == ReleaseCount(log, h) + ReleaseCount(more, h)
    decreases |more|
  {
    if |more| == 0 {
      assert log + more == log;
    } else {
      var front := more[..|more| - 1];
      ReleaseCountAppend(log, front, h);
      assert (log + more)[..|log + more| - 1] == log + front;
    }
  }
}

=== FILE: interpreter.dfy ===
/** The interpreter's entry points: `open` reads the connection style and
    probes the server, `interpret` routes meta-commands and runs statements
    on a connection it acquires and releases, `close` force-closes the
    notebook connection, and `getScheduler` picks the scheduler kind. The
    state is the session record with the connection pool. */
module Interpreter {
  import opened Wrappers
  import opened Text
  import opened ResultFormat
  import opened MetaCommands
  import opened Connections

  const PARAGRAPH_STYLE: string := "paragraph"
  const CANNOT_CONNECT: string := "Cannot open connection to SQL Server."
  const PARALLEL_BOUND: nat := 10

  datatype State = State(session: Session, pool: Pool)

  datatype Reply = Reply(result: InterpreterResult, state: State)

  /** The scheduler `getScheduler` asks the factory for. */
  datatype SchedulerKind = Fifo | Parallel(maxConcurrency: nat)

  /** A freshly constructed interpreter: notebook mode and no connection. */
  const INITIAL: State := State(Session(true, None), Pool({}, 0, []))

  /** Nothing is open except, in notebook mode, the global connection. */
  predicate Settled(st: State) {
    && Consistent(st.session, st.pool)
    && (forall h :: h in st.pool.open ==> st.session.useNotebook && st.session.global == Some(h))
  }

  /** The connection style selects paragraph mode exactly when it equals
      `paragraph` ignoring letter case; every other style, blanks
      included, selects notebook mode. */
  function UseNotebookConnection(style: string): (r: bool)
    ensures !r <==> |style| == |PARAGRAPH_STYLE|
                     && forall k :: 0 <= k < |style| ==>
                          style[k] == PARAGRAPH_STYLE[k] || style[k] == UpperChar(PARAGRAPH_STYLE[k])
  {
    assert |ToLower(style)| == |style|;
    ToLower(style) != PARAGRAPH_STYLE
  }

  /** `open`: set the connection style, then acquire a connection and
      release it unforced, whether or not one was obtained. In notebook
      mode a connection obtained here stays open as the global one. */
  function Open(style: string, st: State, d: Driver): (r: State)
    ensures r.session.useNotebook == UseNotebookConnection(style)
    ensures |r.pool.log| == |st.pool.log| + 2 && r.pool.log[..|st.pool.log|] == st.pool.log
    ensures r.pool.log[|st.pool.log|].Acquired?
    ensures r.pool.log[|st.pool.log| + 1] == Released(r.pool.log[|st.pool.log|].handle, false)
    ensures !r.session.useNotebook ==> r.pool.open <= st.pool.open
    ensures var a := Acquire(st.session.(useNotebook := UseNotebookConnection(style)), st.pool, d);
            && r.session == a.session
            && r.pool.log[|st.pool.log|] == Acquired(a.handle)
            && (r.session.useNotebook && a.handle.Some? ==> r.session.global == a.handle && a.handle.value in r.pool.open)
  {
    var s := st.session.(useNotebook := UseNotebookConnection(style));
    var a := Acquire(s, st.pool, d);
    State(a.session, ReleaseUnforced(a.session, a.pool, a.handle))
  }

  /** `close`: a forced release of the global connection, which stays
      recorded in the session. */
  function Close(st: State): (r: State)
    ensures r.session == st.session
    ensures r.pool.open <= st.pool.open
    ensures st.session.global.Some? ==> st.session.global.value !in r.pool.open
    ensures r.pool.log == st.pool.log + [Released(st.session.global, true)]
  {
    State(st.session, Release(st.session, st.pool, st.session.global, true))
  }

  /** Routing in `interpret`: the raw command, untrimmed, starts with `:`. */
  predicate IsMeta(cmd: string) {
    |cmd| > 0 && cmd[0] == ':'
  }

  /** `interpret`. A meta-command is answered without touching any
      connection. Otherwise a connection is acquired; without one the
      answer is the connection error and nothing is released. With one,
      the statement's outcome is rendered and the connection is released
      once, unforced, whatever the outcome. */
  function Interpret(cmd: string, st: State, d: Driver, outcome: Outcome, order: HelpOrder): (r: Reply)
    ensures r.state.session.useNotebook == st.session.useNotebook
    ensures IsMeta(cmd) ==> r.state == st && r.result == ExecuteMetaCommand(cmd, st.session.useNotebook, order)
    ensures !IsMeta(cmd) ==>
      var a := Acquire(st.session, st.pool, d);
      && (a.handle.None? ==>
            && r.result == InterpreterResult(Error, CANNOT_CONNECT)
            && r.state.pool.log == st.pool.log + [Acquired(None)]
            && r.state.session == st.session
            && r.state.pool.open == a.pool.open)
      && (a.handle.Some? ==>
            && r.result == Normalise(outcome)
            && r.state.session == a.session
            && r.state.pool.log == st.pool.log + [Acquired(a.handle), Released(a.handle, false)]
            && r.state.pool.open == (if a.session.useNotebook then a.pool.open else a.pool.open - {a.handle.value}))
  {
    if IsMeta(cmd) then
      Reply(ExecuteMetaCommand(cmd, st.session.useNotebook, order), st)
    else
      var a := Acquire(st.session, st.pool, d);
      if a.handle.None? then
        Reply(InterpreterResult(Error, CANNOT_CONNECT), State(a.session, a.pool))
      else
        Reply(Normalise(outcome), State(a.session, ReleaseUnforced(a.session, a.pool, a.handle)))
  }

  /** `getScheduler`: FIFO for the shared notebook connection, otherwise a
      parallel scheduler running at most ten paragraphs at once. */
  function Scheduler(s: Session): (k: SchedulerKind)
    ensures k.Fifo? <==> s.useNotebook
    ensures k.Parallel? ==> k.maxConcurrency == PARALLEL_BOUND
  {
    if s.useNotebook then Fifo else Parallel(PARALLEL_BOUND)
  }

  // ---------------------------------------------------------------------
  // Lifecycle properties
  // ---------------------------------------------------------------------

  /** Opening a fresh interpreter leaves it settled: in paragraph mode no
      connection stays open, in notebook mode only the global one. */
  lemma OpenSettles(style: string, d: Driver)
    ensures Settled(Open(style, INITIAL, d))
  {
    var s := INITIAL.session.(useNotebook := UseNotebookConnection(style));
    AcquireConsistent(s, INITIAL.pool, d);
    var a := Acquire(s, INITIAL.pool, d);
    ReleaseConsistent(a.session, a.pool, a.handle, false);
  }

  /** Every `interpret` keeps the interpreter settled. */
  lemma InterpretSettled(cmd: string, st: State, d: Driver, outcome: Outcome, order: HelpOrder)
    requires Settled(st)
    ensures Settled(Interpret(cmd, st, d, outcome, order).state)
  {
    if !IsMeta(cmd) {
      var a := Acquire(st.session, st.pool, d);
      AcquireConsistent(st.session, st.pool, d);
      ReleaseConsistent(a.session, a.pool, a.handle, false);
    }
  }

  /** `close` keeps the interpreter settled and leaves nothing open. */
  lemma CloseSettled(st: State)
    requires Settled(st)
    ensures Settled(Close(st)) && Close(st).pool.open == {}
  {
    ReleaseConsistent(st.session, st.pool, st.session.global, true);
  }

  /** A statement's success or failure does not change what happens to
      connections: the release follows both paths alike. */
  lemma OutcomeDoesNotAffectConnections(cmd: string, st: State, d: Driver, o1: Outcome, o2: Outcome, order: HelpOrder)
    ensures Interpret(cmd, st, d, o1, order).state == Interpret(cmd, st, d, o2, order).state
  {
  }

  /** A connection acquired by `interpret` is released exactly once, and
      when none could be acquired nothing is released. */
  lemma ReleasedExactlyOnce(cmd: string, st: State, d: Driver, outcome: Outcome, order: HelpOrder, h: Handle)
    requires !IsMeta(cmd)
    ensures var a := Acquire(st.session, st.pool, d);
            var log := Interpret(cmd, st, d, outcome, order).state.pool.log;
            ReleaseCount(log, h) == ReleaseCount(st.pool.log, h) + (if a.handle == Some(h) then 1 else 0)
  {
    var a := Acquire(st.session, st.pool, d);
    var log := Interpret(cmd, st, d, outcome, order).state.pool.log;
    var delta := if a.handle.Some? then [Acquired(a.handle), Released(a.handle, false)] else [Acquired(None)];
    assert log == st.pool.log + delta;
    ReleaseCountAppend(st.pool.log, delta, h);
    if a.handle.Some? {
      assert delta[..1] == [Acquired(a.handle)];
      assert [Acquired(a.handle)][..0] == [];
    } else {
      assert delta[..0] == [];
    }
  }

  /** In notebook mode two statements in a row share one connection when
      the second `isClosed` answers false: no new handle is issued and the
      open set is the same. */
  lemma NotebookReuse(c1: string, c2: string, st: State, d1: Driver, d2: Driver,
                      o1: Outcome, o2: Outcome, order: HelpOrder)
    requires Settled(st) && st.session.useNotebook
    requires !IsMeta(c1) && !IsMeta(c2)
    requires Acquire(st.session, st.pool, d1).handle.Some?
    requires d2.probe == Reports(false)
    ensures var r1 := Interpret(c1, st, d1, o1, order);
            var a2 := Acquire(r1.state.session, r1.state.pool, d2);
            var r2 := Interpret(c2, r1.state, d2, o2, order);
            && a2.handle == Acquire(st.session, st.pool, d1).handle
            && r2.state.session == r1.state.session
            && r2.state.pool.open == r1.state.pool.open
            && r2.state.pool.issued == r1.state.pool.issued
  {
    var a1 := Acquire(st.session, st.pool, d1);
    var r1 := Interpret(c1, st, d1, o1, order);
    assert r1.state.session.global == a1.handle;
    assert a1.handle.value in r1.state.pool.open;
    assert Reusable(r1.state.session, r1.state.pool, d2.probe);
  }

  /** A notebook connection the server reports closed is replaced by a
      newly opened one, which becomes the only open connection. */
  lemma DeadHandleReplaced(cmd: string, st: State, d: Driver, outcome: Outcome, order: HelpOrder)
    requires Settled(st) && st.session.useNotebook && st.session.global.Some?
    requires !IsMeta(cmd)
    requires d.probe == Reports(true) && d.connects
    ensures var r := Interpret(cmd, st, d, outcome, order);
            && r.state.session.global == Some(st.pool.issued)
            && st.session.global != r.state.session.global
            && r.state.pool.open == {st.pool.issued}
            && r.result == Normalise(outcome)
  {
  }

  /** In paragraph mode no connection survives a statement, and each
      statement that gets one gets a newly opened one. */
  lemma ParagraphNeverRetains(cmd: string, st: State, d: Driver, outcome: Outcome, order: HelpOrder)
    requires Settled(st) && !st.session.useNotebook
    requires !IsMeta(cmd)
    ensures var r := Interpret(cmd, st, d, outcome, order);
            && r.state.pool.open == {}
            && r.state.session.global.None? == (st.session.global.None? || d.connects)
            && (Acquire(st.session, st.pool, d).handle.Some? ==>
                  Acquire(st.session, st.pool, d).handle == Some(st.pool.issued))
  {
    InterpretSettled(cmd, st, d, outcome, order);
  }

  /** After `close`, the next statement in notebook mode finds the global
      connection closed and opens a new one. */
  lemma ReopenAfterClose(cmd: string, st: State, d: Driver, outcome: Outcome, order: HelpOrder)
    requires Settled(st) && st.session.useNotebook && st.session.global.Some?
    requires !IsMeta(cmd)
    requires d.probe.Reports? && d.connects
    ensures var r := Interpret(cmd, Close(st), d, outcome, order);
            && r.state.session.global == Some(st.pool.issued)
            && r.state.session.global != st.session.global
  {
    assert !Reusable(Close(st).session, Close(st).pool, d.probe);
  }

  /** The `:info` answer's scheduler line names the kind `getScheduler`
      chooses. */
  lemma InfoNamesScheduler(cmd: string, st: State, d: Driver, outcome: Outcome, order: HelpOrder)
    requires IsMeta(cmd) && Canonical(cmd) == INFO_COMMAND
    ensures var lines := Split(Interpret(cmd, st, d, outcome, order).result.message, NEWLINE);
            && |lines| == 3
            && lines[2] == SCHEDULER_PREFIX + (if Scheduler(st.session).Fifo? then "FIFO" else "Parallel")
  {
  }

  /** Routing does not trim: a meta-command preceded by blanks, which the
      meta handler itself would accept, is sent to the server as a
      statement and acquires a connection. */
  lemma LeadingBlanksReachServer(pre: string, core: string, st: State, d: Driver, outcome: Outcome, order: HelpOrder)
    requires |pre| > 0 && forall k :: 0 <= k < |pre| ==> IsBlank(pre[k])
    requires ToLower(core) == HELP_COMMAND || ToLower(core) == INFO_COMMAND
    ensures ExecuteMetaCommand(pre + core, st.session.useNotebook, order).code == Success
    ensures !IsMeta(pre + core)
    ensures var log := Interpret(pre + core, st, d, outcome, order).state.pool.log;
            |log| > |st.pool.log| && log[|st.pool.log|] == Acquired(Acquire(st.session, st.pool, d).handle)
  {
    RecognisedModuloCaseAndBlanks(pre, core, "");
    assert pre + core + "" == pre + core;
    assert (pre + core)[0] == pre[0];
    StatementAcquires(pre + core, st, d, outcome, order);
  }

  /** A statement's first effect on the call history is one acquire call. */
  lemma StatementAcquires(cmd: string, st: State, d: Driver, outcome: Outcome, order: HelpOrder)
    requires !IsMeta(cmd)
    ensures var log := Interpret(cmd, st, d, outcome, order).state.pool.log;
            |log| > |st.pool.log| && log[|st.pool.log|] == Acquired(Acquire(st.session, st.pool, d).handle)
  {
    var a := Acquire(st.session, st.pool, d);
    var log := Interpret(cmd, st, d, outcome, order).state.pool.log;
    assert log[..|st.pool.log| + 1] == st.pool.log + [Acquired(a.handle)];
  }

  /** The connection style is not trimmed: a blank before `paragraph`
      keeps notebook mode. */
  lemma StyleNotTrimmed(style: string)
    requires |style| > 0 && IsBlank(style[0])
    ensures UseNotebookConnection(style)
  {
    assert LowerChar(style[0]) != PARAGRAPH_STYLE[0];
  }

  /** Letter case never changes the mode: a style and its lower-cased form
      select the same connection discipline. */
  lemma StyleIgnoresCase(style: string)
    ensures UseNotebookConnection(ToLower(style)) == UseNotebookConnection(style)
  {
    assert ToLower(ToLower(style)) == ToLower(style);
  }
}

=== FILE: meta_commands.dfy ===
/** `executeMetaCommand`: commands that start with `:` are answered by the
    interpreter itself, without a database connection. The command is
    lower-cased and trimmed; `:help` lists the meta-commands as a `%table`,
    `:info` reports the version and the connection style, anything else is
    an error. */
module MetaCommands {
  import opened Text
  import opened Wrappers
  import opened ResultFormat

  const VERSION: string := "0.7.0-1"
  const UNKNOWN_META: string := "Meta-command not known"
  const HELP_COMMAND: string := ":help"
  const INFO_COMMAND: string := ":info"

  /** The help table's columns and its two entries. */
  const HELP_HEADER: seq<string> := ["MetaCommand", "Description"]
  const HELP_ROW: seq<string> := ["help", "This help"]
  const INFO_ROW: seq<string> := ["info", "Information on used SQL Server interpreter"]

  /** The order in which the help table lists its entries. The source fills
      a Hashtable and iterates it, so the order is not fixed by the code. */
  datatype HelpOrder = HelpFirst | InfoFirst

  /** The command as the handler compares it: lower-cased, then trimmed. */
  function Canonical(cmd: string): string {
    Trim(ToLower(cmd))
  }

  function HelpEntry(name: string, description: string): string {
    name + [TAB] + description + [NEWLINE]
  }

  /** The `:help` answer, built line by line as the source appends it. */
  function HelpText(order: HelpOrder): string {
    TABLE_MAGIC + HELP_HEADER[0] + [TAB] + HELP_HEADER[1] + [NEWLINE]
      + match order
        case HelpFirst => HelpEntry(HELP_ROW[0], HELP_ROW[1]) + HelpEntry(INFO_ROW[0], INFO_ROW[1])
        case InfoFirst => HelpEntry(INFO_ROW[0], INFO_ROW[1]) + HelpEntry(HELP_ROW[0], HELP_ROW[1])
  }

  function HelpRows(order: HelpOrder): seq<seq<string>> {
    match order
    case HelpFirst => [HELP_ROW, INFO_ROW]
    case InfoFirst => [INFO_ROW, HELP_ROW]
  }

  function BoolText(b: bool): string {
    if b then "true" else "false"
  }

  function SchedulerTypeName(useNotebook: bool): string {
    if useNotebook then "FIFO" else "Parallel"
  }

  const VERSION_LINE: string := "Interpreter version: " + VERSION
  const STYLE_PREFIX: string := "Using notebook connection: "
  const SCHEDULER_PREFIX: string := "Apache Zeppelin scheduler type: "

  /** The `:info` answer: three lines, the last one not terminated. */
  function InfoText(useNotebook: bool): string {
    VERSION_LINE + [NEWLINE]
      + STYLE_PREFIX + BoolText(useNotebook) + [NEWLINE]
      + SCHEDULER_PREFIX + SchedulerTypeName(useNotebook)
  }

  /** The meta-command handler. The two commands are checked one after the
      other, and the command is unknown exactly when neither produced any
      text. */
  function ExecuteMetaCommand(cmd: string, useNotebook: bool, order: HelpOrder): (r: InterpreterResult)
    ensures r.code == Success <==> Canonical(cmd) == HELP_COMMAND || Canonical(cmd) == INFO_COMMAND
    ensures r.code == Error ==> r.message == UNKNOWN_META
    ensures Canonical(cmd) == HELP_COMMAND ==>
      && ParseTable(r.message).Some?
      && ParseTable(r.message).value.header == HELP_HEADER
      && multiset(ParseTable(r.message).value.body) == multiset{HELP_ROW, INFO_ROW}
    ensures Canonical(cmd) == INFO_COMMAND ==>
      Split(r.message, NEWLINE)
        == [VERSION_LINE, STYLE_PREFIX + BoolText(useNotebook), SCHEDULER_PREFIX + SchedulerTypeName(useNotebook)]
  {
    var c := Canonical(cmd);
    var help := if c == HELP_COMMAND then HelpText(order) else "";
    var info := if c == INFO_COMMAND then InfoText(useNotebook) else "";
    var message := help + info;
    assert c == HELP_COMMAND ==> message == HelpText(order) && |message| > 0;
    assert c == INFO_COMMAND ==> message == InfoText(useNotebook) && |message| > 0;
    HelpIsTable(order);
    InfoLines(useNotebook);
    if |message| == 0 then InterpreterResult(Error, UNKNOWN_META)
    else InterpreterResult(Success, message)
  }

  lemma JoinPair(sep: char, a: string, b: string)
    ensures Join(sep, [a, b]) == a + [sep] + b
  {
    assert [a, b][..1] == [a];
  }

  lemma JoinTriple(sep: char, a: string, b: string, c: string)
    ensures Join(sep, [a, b, c]) == a + [sep] + b + [sep] + c
  {
    assert [a, b, c][..2] == [a, b];
    JoinPair(sep, a, b);
  }

  /** A two-column grid with two rows, written out. */
  lemma TwoByTwoGrid(h0: string, h1: string, a0: string, a1: string, b0: string, b1: string)
    ensures GridText([h0, h1], [[a0, a1], [b0, b1]])
         == TABLE_MAGIC + h0 + [TAB] + h1 + [NEWLINE] + (HelpEntry(a0, a1) + HelpEntry(b0, b1))
  {
    JoinPair(TAB, h0, h1);
    var x := Join(TAB, [a0, a1]);
    var y := Join(TAB, [b0, b1]);
    JoinPair(TAB, a0, a1);
    JoinPair(TAB, b0, b1);
    var lines := RowLines([[a0, a1], [b0, b1]]);
    assert lines == [x] + [y];
    TerminatedSnoc([x], y);
    assert [x] == [] + [x];
    TerminatedSnoc([], x);
    assert Terminated(lines) == x + [NEWLINE] + y + [NEWLINE];
  }

  /** Text made of printable characters only: no tab, no line break. */
  predicate Printable(s: string) {
    forall k :: 0 <= k < |s| ==> ' ' <= s[k]
  }

  lemma PrintableFlat(s: string)
    requires Printable(s)
    ensures TAB !in s && NEWLINE !in s
  {
  }

  lemma PrintableConcat(a: string, b: string)
    requires Printable(a) && Printable(b)
    ensures Printable(a + b)
  {
  }

  lemma HelpFieldsPrintable()
    ensures Printable(HELP_HEADER[0]) && Printable(HELP_HEADER[1])
    ensures Printable(HELP_ROW[0]) && Printable(HELP_ROW[1])
    ensures Printable(INFO_ROW[0])
  {
  }

  lemma InfoDescriptionPrintable()
    ensures Printable(INFO_ROW[1])
  {
  }

  /** None of the help table's fields holds a tab or a line break. */
  lemma HelpFieldsClean()
    ensures Clean(HELP_HEADER, [HELP_ROW, INFO_ROW])
    ensures Clean(HELP_HEADER, [INFO_ROW, HELP_ROW])
  {
    HelpFieldsPrintable();
    InfoDescriptionPrintable();
    PrintableFlat(HELP_HEADER[0]);
    PrintableFlat(HELP_HEADER[1]);
    PrintableFlat(HELP_ROW[0]);
    PrintableFlat(HELP_ROW[1]);
    PrintableFlat(INFO_ROW[0]);
    PrintableFlat(INFO_ROW[1]);
  }

  /** The help answer is a well-formed table: its header is
      `MetaCommand`/`Description` and its body is the two entries in the
      Hashtable's order. */
  lemma HelpIsTable(order: HelpOrder)
    ensures ParseTable(HelpText(order)) == Some(Grid(HELP_HEADER, HelpRows(order)))
    ensures multiset(HelpRows(order)) == multiset{HELP_ROW, INFO_ROW}
  {
    var rows := HelpRows(order);
    TwoByTwoGrid(HELP_HEADER[0], HELP_HEADER[1], rows[0][0], rows[0][1], rows[1][0], rows[1][1]);
    assert HELP_HEADER == [HELP_HEADER[0], HELP_HEADER[1]];
    assert rows == [[rows[0][0], rows[0][1]], [rows[1][0], rows[1][1]]];
    HelpFieldsClean();
    GridRoundTrip(HELP_HEADER, rows);
  }

  /** No line of the info answer holds a line break. */
  lemma InfoFieldsClean(useNotebook: bool)
    ensures NEWLINE !in VERSION_LINE
    ensures NEWLINE !in STYLE_PREFIX + BoolText(useNotebook)
    ensures NEWLINE !in SCHEDULER_PREFIX + SchedulerTypeName(useNotebook)
  {
    VersionLinePrintable();
    PrefixesPrintable();
    ValuesPrintable(useNotebook);
    PrintableConcat(STYLE_PREFIX, BoolText(useNotebook));
    PrintableConcat(SCHEDULER_PREFIX, SchedulerTypeName(useNotebook));
    PrintableFlat(VERSION_LINE);
    PrintableFlat(STYLE_PREFIX + BoolText(useNotebook));
    PrintableFlat(SCHEDULER_PREFIX + SchedulerTypeName(useNotebook));
  }

  lemma VersionLinePrintable()
    ensures Printable(VERSION_LINE)
  {
    assert Printable("Interpreter version: ");
    assert Printable(VERSION);
    PrintableConcat("Interpreter version: ", VERSION);
  }

  lemma PrefixesPrintable()
    ensures Printable(STYLE_PREFIX) && Printable(SCHEDULER_PREFIX)
  {
  }

  lemma ValuesPrintable(useNotebook: bool)
    ensures Printable(BoolText(useNotebook)) && Printable(SchedulerTypeName(useNotebook))
  {
  }

  lemma ThreeLines(v: string, p: string, x: string, q: string, y: string)
    ensures v + [NEWLINE] + p + x + [NEWLINE] + q + y == v + [NEWLINE] + (p + x) + [NEWLINE] + (q + y)
  {
  }

  /** The info answer has exactly three lines and the last names the
      scheduler the connection style implies. */
  lemma InfoLines(useNotebook: bool)
    ensures Split(InfoText(useNotebook), NEWLINE)
         == [VERSION_LINE, STYLE_PREFIX + BoolText(useNotebook), SCHEDULER_PREFIX + SchedulerTypeName(useNotebook)]
  {
    var a, b, c := VERSION_LINE, STYLE_PREFIX + BoolText(useNotebook), SCHEDULER_PREFIX + SchedulerTypeName(useNotebook);
    JoinTriple(NEWLINE, a, b, c);
    ThreeLines(VERSION_LINE, STYLE_PREFIX, BoolText(useNotebook), SCHEDULER_PREFIX, SchedulerTypeName(useNotebook));
    InfoFieldsClean(useNotebook);
    SplitJoin([a, b, c], NEWLINE);
  }

  /** Lower-casing distributes over concatenation. */
  lemma ToLowerConcat(a: string, b: string)
    ensures ToLower(a + b) == ToLower(a) + ToLower(b)
  {
  }

  /** A meta-command is recognised whatever its letter case and whatever
      blanks surround it. */
  lemma RecognisedModuloCaseAndBlanks(pre: string, core: string, post: string)
    requires forall k :: 0 <= k < |pre| ==> IsBlank(pre[k])
    requires forall k :: 0 <= k < |post| ==> IsBlank(post[k])
    requires ToLower(core) == HELP_COMMAND || ToLower(core) == INFO_COMMAND
    ensures Canonical(pre + core + post) == ToLower(core)
  {
    ToLowerConcat(pre + core, post);
    ToLowerConcat(pre, core);
    LowerKeepsBlank(pre);
    LowerKeepsBlank(post);
    TrimPadded(pre, ToLower(core), post);
  }
}

=== FILE: result_format.dfy ===
/** How `SqlServerInterpreter.interpret` turns the outcome of one statement
    into the text it returns: a `%table` block for a row set, a sentence for
    an update count, and a fixed header plus the driver's message for a
    failed statement. Each renderer comes with a reader that recovers what
    was rendered. */
module ResultFormat {
  import opened Wrappers
  import opened Text

  const TABLE_MAGIC: string := "%table "
  const AFFECTED_SUFFIX: string := " records affected."
  const NO_COUNT: string := "Command executed successfully."
  const STATEMENT_FAILED: string := "Cannot execute SQL Server statement."

  datatype Code = Success | Error

  datatype InterpreterResult = InterpreterResult(code: Code, message: string)

  /** A cell as `ResultSet.getString` returns it: null for SQL NULL. */
  type Cell = Option<string>

  /** What the driver reports for one executed statement. A row holds the
      `getString(1..columns)` values of one result-set row; `SqlError`
      carries `SQLException.getMessage()`, which may be null. */
  datatype Outcome =
    | Table(columns: seq<string>, rows: seq<seq<Cell>>)
    | Update(count: int)
    | SqlError(message: Option<string>)

  /** Every row has one cell per column, as a JDBC result set guarantees. */
  predicate Rectangular(columns: seq<string>, rows: seq<seq<Cell>>) {
    forall k :: 0 <= k < |rows| ==> |rows[k]| == |columns|
  }

  // ---------------------------------------------------------------------
  // Cell sanitiser
  // ---------------------------------------------------------------------

  /** String.replace(char, char). */
  function Replace(s: string, from: char, to: char): string
    decreases |s|
  {
    if |s| == 0 then ""
    else Replace(s[..|s| - 1], from, to) + [if s[|s| - 1] == from then to else s[|s| - 1]]
  }

  /** Replacing keeps the length, swaps every occurrence of `from` for `to`
      and leaves every other character in place. */
  lemma {:induction false} ReplaceSpec(s: string, from: char, to: char)
    ensures |Replace(s, from, to)| == |s|
    ensures forall k :: 0 <= k < |s| ==> Replace(s, from, to)[k] == (if s[k] == from then to else s[k])
    decreases |s|
  {
    if |s| > 0 {
      ReplaceSpec(s[..|s| - 1], from, to);
    }
  }

  /** `replaceTableSpecialChar`: a null cell becomes empty; otherwise tabs
      and newlines become spaces and every other character stays. */
  function Sanitise(cell: Cell): (r: string)
    ensures cell.None? ==> r == ""
    ensures cell.Some? ==> |r| == |cell.value|
    ensures cell.Some? ==> forall k :: 0 <= k < |r| ==>
      r[k] == (if cell.value[k] == TAB || cell.value[k] == NEWLINE then ' ' else cell.value[k])
    ensures TAB !in r && NEWLINE !in r
  {
    match cell
    case None => ""
    case Some(s) =>
      ReplaceSpec(s, TAB, ' ');
      ReplaceSpec(Replace(s, TAB, ' '), NEWLINE, ' ');
      Replace(Replace(s, TAB, ' '), NEWLINE, ' ')
  }

  lemma SanitiseClean(s: string)
    requires TAB !in s && NEWLINE !in s
    ensures Sanitise(Some(s)) == s
  {
    var r := Sanitise(Some(s));
    assert forall k :: 0 <= k < |s| ==> r[k] == s[k];
  }

  // ---------------------------------------------------------------------
  // Row-set rendering
  // ---------------------------------------------------------------------

  function SanitiseRow(row: seq<Cell>): (cells: seq<string>)
    ensures |cells| == |row|
    ensures forall k :: 0 <= k < |row| ==> cells[k] == Sanitise(row[k])
    decreases |row|
  {
    if |row| == 0 then [] else SanitiseRow(row[..|row| - 1]) + [Sanitise(row[|row| - 1])]
  }

  function SanitiseRows(rows: seq<seq<Cell>>): (grid: seq<seq<string>>)
    ensures |grid| == |rows|
    ensures forall k :: 0 <= k < |rows| ==> grid[k] == SanitiseRow(rows[k])
    decreases |rows|
  {
    if |rows| == 0 then [] else SanitiseRows(rows[..|rows| - 1]) + [SanitiseRow(rows[|rows| - 1])]
  }

  /** The body lines without their newlines: each row's fields joined by tabs. */
  function RowLines(body: seq<seq<string>>): (lines: seq<string>)
    ensures |lines| == |body|
    ensures forall k :: 0 <= k < |body| ==> lines[k] == Join(TAB, body[k])
    decreases |body|
  {
    if |body| == 0 then [] else RowLines(body[..|body| - 1]) + [Join(TAB, body[|body| - 1])]
  }

  /** Each line followed by a newline, in order. */
  function Terminated(lines: seq<string>): string
    decreases |lines|
  {
    if |lines| == 0 then ""
    else Terminated(lines[..|lines| - 1]) + lines[|lines| - 1] + [NEWLINE]
  }

  /** A `%table` block: the tag, the header line, then one newline-terminated
      line per body row. */
  function GridText(header: seq<string>, body: seq<seq<string>>): string {
    TABLE_MAGIC + Join(TAB, header) + [NEWLINE] + Terminated(RowLines(body))
  }

  /** The text `interpret` builds for a row set: the column names as they
      are (not sanitised), then the sanitised cells of each row. */
  function TableText(columns: seq<string>, rows: seq<seq<Cell>>): string {
    GridText(columns, SanitiseRows(rows))
  }

  /** Appending field `j` and, unless it is the last, a tab extends the
      joined prefix by one field. */
  lemma FieldStep(text: string, fields: seq<string>, j: nat)
    requires j < |fields|
    ensures text + Join(TAB, fields[..j]) + (if 0 < j < |fields| then [TAB] else [])
              + fields[j] + (if j + 1 < |fields| then [TAB] else [])
         == text + Join(TAB, fields[..j + 1]) + (if 0 < j + 1 < |fields| then [TAB] else [])
  {
    assert fields[..j + 1] == fields[..j] + [fields[j]];
    if j > 0 {
      JoinSnoc(TAB, fields[..j], fields[j]);
    }
  }

  /** The header loop: column names separated by tabs, none after the last. */
  method AppendHeader(text: string, columns: seq<string>) returns (out: string)
    ensures out == text + Join(TAB, columns)
  {
    out := text;
    var i := 0;
    while i < |columns|
      invariant 0 <= i <= |columns|
      invariant out == text + Join(TAB, columns[..i]) + (if 0 < i < |columns| then [TAB] else [])
    {
      FieldStep(text, columns, i);
      out := out + columns[i];
      if i + 1 < |columns| {
        out := out + [TAB];
      }
      i := i + 1;
    }
    assert columns[..i] == columns;
  }

  /** The cell loop for one row: each cell sanitised as it is appended,
      cells separated by tabs. */
  method AppendRow(text: string, row: seq<Cell>) returns (out: string)
    ensures out == text + Join(TAB, SanitiseRow(row))
  {
    out := text;
    ghost var cells := SanitiseRow(row);
    var j := 0;
    while j < |row|
      invariant 0 <= j <= |row| == |cells|
      invariant out == text + Join(TAB, cells[..j]) + (if 0 < j < |cells| then [TAB] else [])
    {
      var cell := Sanitise(row[j]);
      assert cell == cells[j];
      FieldStep(text, cells, j);
      out := out + cell;
      if j + 1 < |row| {
        out := out + [TAB];
      }
      j := j + 1;
    }
    assert cells[..j] == cells;
  }

  lemma SliceSnoc<T>(s: seq<T>, r: nat)
    requires r < |s|
    ensures s[..r + 1] == s[..r] + [s[r]]
  {
  }

  lemma TerminatedSnoc(lines: seq<string>, line: string)
    ensures Terminated(lines + [line]) == Terminated(lines) + line + [NEWLINE]
  {
    assert (lines + [line])[..|lines|] == lines;
  }

  lemma ExtendTerminated(head: string, done: seq<string>, line: string)
    ensures head + Terminated(done + [line]) == head + Terminated(done) + line + [NEWLINE]
  {
    TerminatedSnoc(done, line);
  }

  /** The header and body loops of `interpret`, appending to one buffer;
      each row contributes exactly one newline-terminated line. */
  method RenderRowSet(columns: seq<string>, rows: seq<seq<Cell>>) returns (text: string)
    ensures text == TableText(columns, rows)
  {
    text := AppendHeader(TABLE_MAGIC, columns);
    text := text + [NEWLINE];
    var head := text;
    ghost var lines := RowLines(SanitiseRows(rows));
    var r := 0;
    while r < |rows|
      invariant 0 <= r <= |rows| == |lines|
      invariant text == head + Terminated(lines[..r])
    {
      assert lines[r] == Join(TAB, SanitiseRow(rows[r]));
      SliceSnoc(lines, r);
      ExtendTerminated(head, lines[..r], lines[r]);
      text := AppendRow(text, rows[r]);
      text := text + [NEWLINE];
      r := r + 1;
    }
    assert lines[..r] == lines;
  }

  // ---------------------------------------------------------------------
  // Reading a table back
  // ---------------------------------------------------------------------

  /** A reader for the `%table` format: the tag, then newline-terminated
      lines, the first holding the header; every line split on tabs. */
  datatype Grid = Grid(header: seq<string>, body: seq<seq<string>>)

  function ParseTable(text: string): Option<Grid> {
    if StartsWith(text, TABLE_MAGIC) then ReadLines(Split(text[|TABLE_MAGIC|..], NEWLINE)) else None
  }

  /** The header and body of a table whose lines are given; the last line
      must be the empty one after the final newline. */
  function ReadLines(lines: seq<string>): Option<Grid> {
    if |lines| < 2 || lines[|lines| - 1] != "" then None
    else Some(Grid(Split(lines[0], TAB), SplitEach(lines[1..|lines| - 1])))
  }

  function SplitEach(lines: seq<string>): (rows: seq<seq<string>>)
    ensures |rows| == |lines|
    ensures forall k :: 0 <= k < |lines| ==> rows[k] == Split(lines[k], TAB)
    decreases |lines|
  {
    if |lines| == 0 then [] else SplitEach(lines[..|lines| - 1]) + [Split(lines[|lines| - 1], TAB)]
  }

  lemma ParseTagged(rest: string)
    ensures ParseTable(TABLE_MAGIC + rest) == ReadLines(Split(rest, NEWLINE))
  {
    var text := TABLE_MAGIC + rest;
    assert text[..|TABLE_MAGIC|] == TABLE_MAGIC;
    assert text[|TABLE_MAGIC|..] == rest;
  }

  lemma ConcatShuffle(header: string, body: string, line: string, joined: string)
    requires header + [NEWLINE] + body == joined + [NEWLINE]
    ensures header + [NEWLINE] + (body + line + [NEWLINE]) == joined + [NEWLINE] + line + [NEWLINE]
  {
  }

  /** Newline-terminated lines after a header line are the newline-joined
      lines, header first, plus one final newline. */
  lemma {:induction false} TerminatedAsJoin(header: string, lines: seq<string>)
    ensures header + [NEWLINE] + Terminated(lines) == Join(NEWLINE, [header] + lines) + [NEWLINE]
    decreases |lines|
  {
    if |lines| == 0 {
      assert [header] + lines == [header];
    } else {
      var front := lines[..|lines| - 1];
      var line := lines[|lines| - 1];
      TerminatedAsJoin(header, front);
      assert [header] + lines == ([header] + front) + [line];
      JoinSnoc(NEWLINE, [header] + front, line);
      ConcatShuffle(header, Terminated(front), line, Join(NEWLINE, [header] + front));
    }
  }

  /** No field holds a tab or a newline, the header has a field and so
      does every body row: the grids the `%table` format can carry. */
  predicate Clean(header: seq<string>, body: seq<seq<string>>) {
    && |header| >= 1
    && (forall j :: 0 <= j < |header| ==> TAB !in header[j] && NEWLINE !in header[j])
    && (forall i :: 0 <= i < |body| ==> |body[i]| >= 1)
    && (forall i, j :: 0 <= i < |body| && 0 <= j < |body[i]| ==> TAB !in body[i][j] && NEWLINE !in body[i][j])
  }

  lemma GridTextLines(header: seq<string>, body: seq<seq<string>>)
    ensures GridText(header, body)
         == TABLE_MAGIC + (Join(NEWLINE, [Join(TAB, header)] + RowLines(body)) + [NEWLINE])
  {
    var head := Join(TAB, header);
    TerminatedAsJoin(head, RowLines(body));
    assert GridText(header, body) == TABLE_MAGIC + (head + [NEWLINE] + Terminated(RowLines(body)));
  }

  lemma GridLinesSplit(header: seq<string>, body: seq<seq<string>>)
    requires Clean(header, body)
    ensures var all := [Join(TAB, header)] + RowLines(body);
      Split(Join(NEWLINE, all) + [NEWLINE], NEWLINE) == all + [""]
  {
    var all := [Join(TAB, header)] + RowLines(body);
    JoinAvoids(header, TAB, NEWLINE);
    forall k | 0 <= k < |body|
      ensures NEWLINE !in RowLines(body)[k]
    {
      JoinAvoids(body[k], TAB, NEWLINE);
    }
    assert forall k :: 0 <= k < |all| ==> NEWLINE !in all[k];
    SplitAppendSep(Join(NEWLINE, all), NEWLINE);
    SplitJoin(all, NEWLINE);
  }

  lemma ReadSplitLines(head: string, lines: seq<string>, header: seq<string>, body: seq<seq<string>>)
    requires Split(head, TAB) == header && |lines| == |body|
    requires forall k :: 0 <= k < |lines| ==> Split(lines[k], TAB) == body[k]
    ensures ReadLines([head] + lines + [""]) == Some(Grid(header, body))
  {
    var all := [head] + lines + [""];
    assert all[0] == head && all[|all| - 1] == "";
    assert all[1..|all| - 1] == lines;
    assert SplitEach(lines) == body;
  }

  lemma ReadGridLines(header: seq<string>, body: seq<seq<string>>)
    requires Clean(header, body)
    ensures ReadLines([Join(TAB, header)] + RowLines(body) + [""]) == Some(Grid(header, body))
  {
    var lines := RowLines(body);
    SplitJoin(header, TAB);
    forall k | 0 <= k < |body|
      ensures Split(lines[k], TAB) == body[k]
    {
      SplitJoin(body[k], TAB);
    }
    ReadSplitLines(Join(TAB, header), lines, header, body);
  }

  /** Reading back a rendered grid gives exactly the header and rows that
      were rendered, whenever the grid is clean. */
  lemma GridRoundTrip(header: seq<string>, body: seq<seq<string>>)
    requires Clean(header, body)
    ensures ParseTable(GridText(header, body)) == Some(Grid(header, body))
  {
    var all := [Join(TAB, header)] + RowLines(body);
    GridTextLines(header, body);
    ParseTagged(Join(NEWLINE, all) + [NEWLINE]);
    GridLinesSplit(header, body);
    ReadGridLines(header, body);
  }

  /** Reading back a rendered row set gives the column names and the
      sanitised cells, so every body line has exactly one field per column.
      It needs at least one column and column names free of tabs and
      newlines, since the header is emitted unsanitised. */
  lemma TableRoundTrip(columns: seq<string>, rows: seq<seq<Cell>>)
    requires |columns| >= 1 && Rectangular(columns, rows)
    requires forall k :: 0 <= k < |columns| ==> TAB !in columns[k] && NEWLINE !in columns[k]
    ensures ParseTable(TableText(columns, rows)) == Some(Grid(columns, SanitiseRows(rows)))
    ensures forall k :: 0 <= k < |rows| ==> |ParseTable(TableText(columns, rows)).value.body[k]| == |columns|
  {
    var body := SanitiseRows(rows);
    forall i, j | 0 <= i < |body| && 0 <= j < |body[i]|
      ensures TAB !in body[i][j] && NEWLINE !in body[i][j]
    {
      assert body[i][j] == Sanitise(rows[i][j]);
    }
    assert Clean(columns, body);
    GridRoundTrip(columns, body);
  }

  /** Every body line splits into the sanitised cells of its row, one field
      per column, whatever the column names hold. */
  lemma BodyLinesSplit(columns: seq<string>, rows: seq<seq<Cell>>)
    requires |columns| >= 1 && Rectangular(columns, rows)
    ensures forall k :: 0 <= k < |rows| ==> Split(RowLines(SanitiseRows(rows))[k], TAB) == SanitiseRows(rows)[k]
  {
    var body := SanitiseRows(rows);
    forall k | 0 <= k < |rows|
      ensures Split(RowLines(body)[k], TAB) == body[k]
    {
      forall j | 0 <= j < |body[k]|
        ensures TAB !in body[k][j]
      {
        assert body[k][j] == Sanitise(rows[k][j]);
      }
      SplitJoin(body[k], TAB);
    }
  }

  /** Hence every body line has exactly one field per column. */
  lemma BodyLineWidths(columns: seq<string>, rows: seq<seq<Cell>>)
    requires |columns| >= 1 && Rectangular(columns, rows)
    ensures forall k :: 0 <= k < |rows| ==> |Split(RowLines(SanitiseRows(rows))[k], TAB)| == |columns|
  {
    BodyLinesSplit(columns, rows);
  }

  lemma TableReadBack(columns: seq<string>, rows: seq<seq<Cell>>)
    ensures |columns| >= 1 && Rectangular(columns, rows)
            && (forall k :: 0 <= k < |columns| ==> TAB !in columns[k] && NEWLINE !in columns[k])
            ==> ParseTable(TableText(columns, rows)) == Some(Grid(columns, SanitiseRows(rows)))
  {
    if |columns| >= 1 && Rectangular(columns, rows)
       && (forall k :: 0 <= k < |columns| ==> TAB !in columns[k] && NEWLINE !in columns[k]) {
      TableRoundTrip(columns, rows);
    }
  }

  /** Column names are not sanitised: a name holding a tab reads back as
      two header fields. */
  lemma HeaderNotSanitised(a: string, b: string)
    requires TAB !in a && NEWLINE !in a && TAB !in b && NEWLINE !in b
    ensures ParseTable(TableText([a + [TAB] + b], [])) == Some(Grid([a, b], []))
  {
    assert Join(TAB, [a, b]) == a + [TAB] + b by {
      assert [a, b][..1] == [a];
    }
    assert TableText([a + [TAB] + b], []) == GridText([a, b], []);
    assert Clean([a, b], []);
    GridRoundTrip([a, b], []);
  }

  // ---------------------------------------------------------------------
  // Update counts
  // ---------------------------------------------------------------------

  /** The message for `getUpdateCount()`: a count of zero or more is
      reported, the -1 "no count" answer (any negative) is not. */
  function UpdateText(count: int): string {
    if count >= 0 then NatToString(count) + AFFECTED_SUFFIX else NO_COUNT
  }

  /** The count an update message reports, if it has the
      "<digits> records affected." shape with the digits `%d` writes. */
  function AffectedCount(text: string): Option<nat> {
    if |text| <= |AFFECTED_SUFFIX| then None
    else
      var digits := text[..|text| - |AFFECTED_SUFFIX|];
      if text[|text| - |AFFECTED_SUFFIX|..] == AFFECTED_SUFFIX && CanonicalDigits(digits)
      then Some(ParseDecimal(digits))
      else None
  }

  /** A text the reader accepts is exactly the message for its count, so the
      round trip below pins the whole literal and not just the number. */
  lemma AffectedCountExact(text: string)
    ensures AffectedCount(text).Some? ==> text == UpdateText(AffectedCount(text).value)
  {
    if AffectedCount(text).Some? {
      var digits := text[..|text| - |AFFECTED_SUFFIX|];
      NatToStringParse(digits);
      assert text == digits + text[|text| - |AFFECTED_SUFFIX|..];
    }
  }

  lemma UpdateRoundTrip(count: int)
    ensures AffectedCount(UpdateText(count)) == (if count >= 0 then Some(count) else None)
    ensures count < 0 ==> UpdateText(count) == NO_COUNT
  {
    if count >= 0 {
      var digits := NatToString(count);
      var text := UpdateText(count);
      assert text[..|text| - |AFFECTED_SUFFIX|] == digits;
      assert text[|text| - |AFFECTED_SUFFIX|..] == AFFECTED_SUFFIX;
      ParseNatToString(count);
    } else {
      assert !IsDigit(NO_COUNT[0]);
    }
  }

  lemma TableTagged(columns: seq<string>, rows: seq<seq<Cell>>)
    ensures StartsWith(TableText(columns, rows), TABLE_MAGIC)
  {
    GridTextLines(columns, SanitiseRows(rows));
  }

  lemma UpdateNotTable(count: int)
    ensures !StartsWith(UpdateText(count), TABLE_MAGIC)
  {
    var text := UpdateText(count);
    if count >= 0 {
      assert text[0] == NatToString(count)[0];
    }
    FirstCharDiffers(text, TABLE_MAGIC);
  }

  // ---------------------------------------------------------------------
  // Statement failures
  // ---------------------------------------------------------------------

  /** How StringBuilder.append renders a possibly null message. */
  function MessageText(message: Option<string>): string {
    match message
    case None => "null"
    case Some(m) => m
  }

  /** The text for an SQLException: the fixed header line, then the
      driver's message on a line of its own. */
  function StatementErrorText(message: Option<string>): string {
    STATEMENT_FAILED + [NEWLINE] + MessageText(message) + [NEWLINE]
  }

  /** The driver message carried by a statement-failure text. */
  function ErrorDetail(text: string): Option<string> {
    var head := STATEMENT_FAILED + [NEWLINE];
    if StartsWith(text, head) && |text| > |head| && text[|text| - 1] == NEWLINE
    then Some(text[|head|..|text| - 1])
    else None
  }

  lemma StatementErrorRoundTrip(message: Option<string>)
    ensures ErrorDetail(StatementErrorText(message)) == Some(MessageText(message))
  {
    var head := STATEMENT_FAILED + [NEWLINE];
    var text := StatementErrorText(message);
    assert text == head + (MessageText(message) + [NEWLINE]);
    assert text[..|head|] == head;
    assert text[|head|..|text| - 1] == MessageText(message);
  }

  // ---------------------------------------------------------------------
  // The normaliser
  // ---------------------------------------------------------------------

  /** The reply `interpret` gives once a connection was obtained. Only a
      failed statement is an error; a row set and only a row set starts with
      the table tag; each variant can be read back. */
  function Normalise(outcome: Outcome): (r: InterpreterResult)
    ensures r.code == Error <==> outcome.SqlError?
    ensures StartsWith(r.message, TABLE_MAGIC) <==> outcome.Table?
    ensures outcome.Table? && |outcome.columns| >= 1 && Rectangular(outcome.columns, outcome.rows)
            && (forall k :: 0 <= k < |outcome.columns| ==> TAB !in outcome.columns[k] && NEWLINE !in outcome.columns[k])
            ==> ParseTable(r.message) == Some(Grid(outcome.columns, SanitiseRows(outcome.rows)))
    ensures outcome.Update? ==> AffectedCount(r.message) == (if outcome.count >= 0 then Some(outcome.count) else None)
    ensures outcome.Update? && outcome.count < 0 ==> r.message == NO_COUNT
    ensures outcome.SqlError? ==> ErrorDetail(r.message) == Some(MessageText(outcome.message))
  {
    match outcome
    case Table(columns, rows) =>
      TableReadBack(columns, rows);
      TableTagged(columns, rows);
      InterpreterResult(Success, TableText(columns, rows))
    case Update(count) =>
      UpdateRoundTrip(count);
      UpdateNotTable(count);
      InterpreterResult(Success, UpdateText(count))
    case SqlError(message) =>
      StatementErrorRoundTrip(message);
      var text := StatementErrorText(message);
      FirstCharDiffers(text, TABLE_MAGIC);
      InterpreterResult(Error, text)
  }
}

=== FILE: text.dfy ===
/** String operations behind the interpreter's text handling. `Join` is what
    the `StringBuilder` append loops produce: fields with a delimiter
    between them. `Split` is not used by the interpreter; it is the reader
    the round-trip proofs parse rendered text with. Lower-casing, trimming
    and the decimal rendering of a count model `java.lang.String`.
    Strings are `seq<char>`. */
module Text {

  const TAB: char := '\t'
  const NEWLINE: char := '\n'

  predicate StartsWith(s: string, prefix: string) {
    |prefix| <= |s| && s[..|prefix|] == prefix
  }

  lemma FirstCharDiffers(s: string, prefix: string)
    requires |s| > 0 && |prefix| > 0 && s[0] != prefix[0]
    ensures !StartsWith(s, prefix)
  {
  }

  // ---------------------------------------------------------------------
  // Joining and splitting on one delimiter character
  // ---------------------------------------------------------------------

  /** The parts separated by `sep`: no separator before the first part or
      after the last one. */
  function Join(sep: char, parts: seq<string>): string
    decreases |parts|
  {
    if |parts| == 0 then ""
    else if |parts| == 1 then parts[0]
    else Join(sep, parts[..|parts| - 1]) + [sep] + parts[|parts| - 1]
  }

  /** The fields of `s` between occurrences of `sep`; `n` separators give
      `n + 1` fields, so the empty string is one empty field. */
  function Split(s: string, sep: char): (fields: seq<string>)
    ensures |fields| >= 1
    ensures forall k :: 0 <= k < |fields| ==> sep !in fields[k]
    decreases |s|
  {
    if |s| == 0 then [""]
    else
      var init := Split(s[..|s| - 1], sep);
      var c := s[|s| - 1];
      if c == sep then init + [""]
      else init[..|init| - 1] + [init[|init| - 1] + [c]]
  }

  lemma JoinSnoc(sep: char, parts: seq<string>, last: string)
    requires |parts| >= 1
    ensures Join(sep, parts + [last]) == Join(sep, parts) + [sep] + last
  {
    assert (parts + [last])[..|parts|] == parts;
  }

  /** Extending the last part extends the joined text by the same amount. */
  lemma JoinExtendLast(sep: char, parts: seq<string>, y: string)
    requires |parts| >= 1
    ensures Join(sep, parts[..|parts| - 1] + [parts[|parts| - 1] + y]) == Join(sep, parts) + y
  {
    var front := parts[..|parts| - 1];
    var last := parts[|parts| - 1];
    if |parts| == 1 {
      assert front + [last + y] == [last + y];
    } else {
      assert parts == front + [last];
      JoinSnoc(sep, front, last);
      JoinSnoc(sep, front, last + y);
      var j := Join(sep, front);
      assert j + [sep] + (last + y) == (j + [sep] + last) + y;
    }
  }

  /** Splitting and joining again gives back the original text. */
  lemma {:induction false} JoinSplit(s: string, sep: char)
    ensures Join(sep, Split(s, sep)) == s
    decreases |s|
  {
    if |s| > 0 {
      var prefix := s[..|s| - 1];
      var c := s[|s| - 1];
      var init := Split(prefix, sep);
      JoinSplit(prefix, sep);
      SnocAssoc([], s);
      assert s == prefix + [c];
      if c == sep {
        assert Split(s, sep) == init + [""];
        JoinSnoc(sep, init, "");
        assert Join(sep, init) + [sep] + "" == prefix + [c];
      } else {
        assert Split(s, sep) == init[..|init| - 1] + [init[|init| - 1] + [c]];
        JoinExtendLast(sep, init, [c]);
      }
    }
  }

  lemma SplitAppendSep(x: string, sep: char)
    ensures Split(x + [sep], sep) == Split(x, sep) + [""]
  {
    assert (x + [sep])[..|x|] == x;
  }

  lemma SplitSnoc(x: string, c: char, sep: char)
    requires c != sep
    ensures var f := Split(x, sep); Split(x + [c], sep) == f[..|f| - 1] + [f[|f| - 1] + [c]]
  {
    assert (x + [c])[..|x|] == x;
  }

  lemma SnocParts<T>(front: seq<T>, last: T)
    ensures var s := front + [last]; |s| >= 1 && s[..|s| - 1] == front && s[|s| - 1] == last
  {
  }

  lemma SnocAssoc<T>(x: seq<T>, y: seq<T>)
    requires |y| > 0
    ensures (x + y[..|y| - 1]) + [y[|y| - 1]] == x + y
  {
  }

  /** Appending text free of the separator only lengthens the last field. */
  lemma {:induction false} SplitExtendLast(x: string, y: string, sep: char)
    requires sep !in y
    ensures var f := Split(x, sep); Split(x + y, sep) == f[..|f| - 1] + [f[|f| - 1] + y]
    decreases |y|
  {
    var f := Split(x, sep);
    var front, last := f[..|f| - 1], f[|f| - 1];
    if |y| == 0 {
      assert x + y == x;
      assert last + y == last;
      assert f == front + [last];
    } else {
      var y' := y[..|y| - 1];
      var c := y[|y| - 1];
      assert sep !in y';
      SplitExtendLast(x, y', sep);
      var g := Split(x + y', sep);
      assert g == front + [last + y'];
      SnocParts(front, last + y');
      SplitSnoc(x + y', c, sep);
      assert Split((x + y') + [c], sep) == front + [(last + y') + [c]];
      SnocAssoc(x, y);
      SnocAssoc(last, y);
    }
  }

  /** Joining fields free of the separator and splitting again recovers
      exactly those fields. */
  lemma {:induction false} SplitJoin(parts: seq<string>, sep: char)
    requires |parts| >= 1
    requires forall k :: 0 <= k < |parts| ==> sep !in parts[k]
    ensures Split(Join(sep, parts), sep) == parts
    decreases |parts|
  {
    if |parts| == 1 {
      SplitExtendLast("", parts[0], sep);
      assert "" + parts[0] == parts[0];
    } else {
      var front := parts[..|parts| - 1];
      var last := parts[|parts| - 1];
      var joined := Join(sep, front);
      assert parts == front + [last];
      JoinSnoc(sep, front, last);
      SplitJoin(front, sep);
      SplitAppendSep(joined, sep);
      SplitExtendLast(joined + [sep], last, sep);
      var f := Split(joined + [sep], sep);
      assert f == front + [""];
      assert f[..|f| - 1] == front;
      assert "" + last == last;
    }
  }

  /** A character absent from every part and different from the separator
      is absent from the joined text. */
  lemma {:induction false} JoinAvoids(parts: seq<string>, sep: char, c: char)
    requires c != sep
    requires forall k :: 0 <= k < |parts| ==> c !in parts[k]
    ensures c !in Join(sep, parts)
    decreases |parts|
  {
    if |parts| > 1 {
      JoinAvoids(parts[..|parts| - 1], sep, c);
    }
  }

  // ---------------------------------------------------------------------
  // Case and white space
  // ---------------------------------------------------------------------

  function LowerChar(c: char): char {
    if 'A' <= c <= 'Z' then (c as int + 32) as char else c
  }

  function UpperChar(c: char): char {
    if 'a' <= c <= 'z' then (c as int - 32) as char else c
  }

  /** String.toLowerCase restricted to the ASCII letters. */
  function ToLower(s: string): string {
    seq(|s|, k requires 0 <= k < |s| => LowerChar(s[k]))
  }

  /** The characters String.trim removes: every code point up to U+0020. */
  predicate IsBlank(c: char) {
    c <= ' '
  }

  function TrimLeading(s: string): (r: string)
    ensures |r| <= |s| && r == s[|s| - |r|..]
    ensures forall k :: 0 <= k < |s| - |r| ==> IsBlank(s[k])
    ensures |r| > 0 ==> !IsBlank(r[0])
    decreases |s|
  {
    if |s| > 0 && IsBlank(s[0]) then TrimLeading(s[1..]) else s
  }

  function TrimTrailing(s: string): (r: string)
    ensures |r| <= |s| && r == s[..|r|]
    ensures forall k :: |r| <= k < |s| ==> IsBlank(s[k])
    ensures |r| > 0 ==> !IsBlank(r[|r| - 1])
    decreases |s|
  {
    if |s| > 0 && IsBlank(s[|s| - 1]) then TrimTrailing(s[..|s| - 1]) else s
  }

  /** String.trim: the longest infix that neither starts nor ends with a
      blank, obtained by dropping blanks from both ends. */
  function Trim(s: string): (r: string)
    ensures |r| <= |TrimLeading(s)|
    ensures var a := |s| - |TrimLeading(s)|;
      && (forall k :: 0 <= k < |r| ==> r[k] == s[a + k])
      && (forall k :: 0 <= k < a ==> IsBlank(s[k]))
      && (forall k :: a + |r| <= k < |s| ==> IsBlank(s[k]))
    ensures |r| > 0 ==> !IsBlank(r[0]) && !IsBlank(r[|r| - 1])
  {
    var lead := TrimLeading(s);
    var r := TrimTrailing(lead);
    BlankTailOfSuffix(s, |s| - |lead|, |r|);
    r
  }

  /** Blanks after the first `n` characters of a suffix are blanks of the
      whole text, and that prefix of the suffix is an infix. */
  lemma BlankTailOfSuffix(s: string, a: nat, n: nat)
    requires a + n <= |s|
    requires forall k :: n <= k < |s| - a ==> IsBlank(s[a..][k])
    ensures forall k :: 0 <= k < n ==> s[a..][..n][k] == s[a + k]
    ensures forall k :: a + n <= k < |s| ==> IsBlank(s[k])
  {
    forall k | a + n <= k < |s|
      ensures IsBlank(s[k])
    {
      assert s[k] == s[a..][k - a];
    }
  }

  /** Leading blanks before a non-blank are exactly what is dropped. */
  lemma {:induction false} TrimLeadingPadded(pre: string, rest: string)
    requires forall k :: 0 <= k < |pre| ==> IsBlank(pre[k])
    requires |rest| > 0 && !IsBlank(rest[0])
    ensures TrimLeading(pre + rest) == rest
    decreases |pre|
  {
    if |pre| == 0 {
      assert pre + rest == rest;
    } else {
      assert (pre + rest)[1..] == pre[1..] + rest;
      TrimLeadingPadded(pre[1..], rest);
    }
  }

  /** Trailing blanks after a non-blank are exactly what is dropped. */
  lemma {:induction false} TrimTrailingPadded(rest: string, post: string)
    requires forall k :: 0 <= k < |post| ==> IsBlank(post[k])
    requires |rest| > 0 && !IsBlank(rest[|rest| - 1])
    ensures TrimTrailing(rest + post) == rest
    decreases |post|
  {
    if |post| == 0 {
      assert rest + post == rest;
    } else {
      assert (rest + post)[..|rest + post| - 1] == rest + post[..|post| - 1];
      TrimTrailingPadded(rest, post[..|post| - 1]);
    }
  }

  /** Blanks around a core that starts and ends with a non-blank are
      exactly what trimming removes. */
  lemma TrimPadded(pre: string, core: string, post: string)
    requires forall k :: 0 <= k < |pre| ==> IsBlank(pre[k])
    requires forall k :: 0 <= k < |post| ==> IsBlank(post[k])
    requires |core| > 0 && !IsBlank(core[0]) && !IsBlank(core[|core| - 1])
    ensures Trim(pre + core + post) == core
  {
    assert pre + core + post == pre + (core + post);
    TrimLeadingPadded(pre, core + post);
    TrimTrailingPadded(core, post);
  }

  lemma LowerKeepsBlank(s: string)
    requires forall k :: 0 <= k < |s| ==> IsBlank(s[k])
    ensures ToLower(s) == s
  {
  }

  // ---------------------------------------------------------------------
  // Decimal rendering of a count
  // ---------------------------------------------------------------------

  predicate IsDigit(c: char) {
    '0' <= c <= '9'
  }

  predicate AllDigits(s: string) {
    forall k :: 0 <= k < |s| ==> IsDigit(s[k])
  }

  /** Decimal digits as `%d` writes them: at least one, and no leading
      zero unless the number is zero itself. */
  predicate CanonicalDigits(s: string) {
    |s| >= 1 && AllDigits(s) && (|s| == 1 || s[0] != '0')
  }

  function DigitChar(d: nat): char
    requires d < 10
  {
    ('0' as int + d) as char
  }

  /** The decimal digits of `n`, most significant first, without a sign and
      without leading zeros. */
  function NatToString(n: nat): (r: string)
    ensures |r| >= 1 && AllDigits(r)
    ensures n > 0 ==> r[0] != '0'
    decreases n
  {
    if n < 10 then [DigitChar(n)] else NatToString(n / 10) + [DigitChar(n % 10)]
  }

  /** The number a string of decimal digits denotes. */
  function ParseDecimal(s: string): nat
    requires AllDigits(s)
    decreases |s|
  {
    if |s| == 0 then 0
    else 10 * ParseDecimal(s[..|s| - 1]) + (s[|s| - 1] as int - '0' as int)
  }

  lemma {:induction false} ParseNatToString(n: nat)
    ensures ParseDecimal(NatToString(n)) == n
    decreases n
  {
    if n >= 10 {
      var r := NatToString(n);
      ParseNatToString(n / 10);
      assert r[..|r| - 1] == NatToString(n / 10);
    }
  }

  lemma {:induction false} ParsePositive(s: string)
    requires AllDigits(s) && |s| >= 1 && s[0] != '0'
    ensures ParseDecimal(s) >= 1
    decreases |s|
  {
    if |s| > 1 {
      ParsePositive(s[..|s| - 1]);
    }
  }

  /** Reading canonical digits and printing the number gives the digits
      back: `%d` is the only way to write a count. */
  lemma {:induction false} NatToStringParse(s: string)
    requires CanonicalDigits(s)
    ensures NatToString(ParseDecimal(s)) == s
    decreases |s|
  {
    var c := s[|s| - 1] as int - '0' as int;
    if |s| > 1 {
      var front := s[..|s| - 1];
      NatToStringParse(front);
      ParsePositive(front);
      var n := ParseDecimal(s);
      assert n / 10 == ParseDecimal(front) && n % 10 == c;
      assert s == front + [DigitChar(c)];
    }
  }
}

=== FILE: wrappers.dfy ===
/** The optional value used wherever the interpreter stores or returns a
    Java reference that may be null. */
module Wrappers {

  datatype Option<+T> = None | Some(value: T)
}
